=== FILE: README.md ===
# Qubyx 3D LUT generator and profile arithmetic, modelled in Dafny

This project models the self-contained core of the Qubyx 3D LUT generator. It has three parts.

- **`generate3dLut`** (`lut_generator.dfy`, module `LutGenerator`). The function checks its arguments in a fixed order and returns an `A3dLut_Status`. It loads a GA profile and a display profile. It then samples the GA → display profile chain on a `grid × grid × grid` lattice. Each node is written into three caller-supplied 32-bit buffers at a running index.
  - The model is a method over nullable arrays.
  - Profile loading, the chain's transform and the `round` + unsigned conversion are passed in as functions.
  - A ghost out-parameter records which profiles were loaded.
- **Colour arithmetic of `QubyxProfile`** (`chromatic_adaptation.dfy`, module `ChromaticAdaptation`). It covers the following, all over exact reals:
  - the chromatic-adaptation matrix `inv · diag(gains) · fwd` for the Bradford, CAT02 and von Kries cone tables;
  - its in-place application to an XYZ point, through the fixed-array overload and the vector overloads;
  - the per-channel black-point mapping of `perceptualTransform`.
- **Small stateful logic**:
  - the `CIccMinMaxEval` accumulator (`min_max_eval.dfy`, module `MinMaxEval`). It is a class whose ghost field `seen` records every comparison, and `Valid()` ties every field to a function of that record;
  - the profile title, the ICC specification version and the Lab test of `QubyxProfile` (`profile.dfy`, module `Profile`).

## Model

| member | source | states |
|---|---|---|
| LutGenerator.StatusCode | Qubyx3DLUTGenerator/qubyx3dlutgenerator.h:9-17 | Status codes lie in 0..5, and the code is 0 exactly for `Ok`. |
| LutGenerator.StatusCodeInjective | Qubyx3DLUTGenerator/qubyx3dlutgenerator.h:9-17 | Distinct statuses have distinct codes. |
| LutGenerator.GenerateLut | Qubyx3DLUTGenerator/qubyx3dlutgenerator.cpp:13-57 | `grid < 2` gives `ErrorWrongGridValue` before anything else, and nothing is loaded. With `grid >= 2`, a null buffer gives `ErrorNullPointerForOutput`, and nothing is loaded. A failed GA load gives `ErrorCantOpenGA`, and the display profile is never loaded. A failed display load gives `ErrorCantOpenDisplay`. No error writes a buffer. `Ok` means every position below grid³ holds its sample and every position at or beyond grid³ is untouched. |
| LutGenerator.FillBuffers | Qubyx3DLUTGenerator/qubyx3dlutgenerator.cpp:35-54 | The R/G/B loop nest ends with the running index at exactly grid³. All grid³ positions are filled, and nothing beyond them changes. |
| LutGenerator.FillRow | Qubyx3DLUTGenerator/qubyx3dlutgenerator.cpp:38-54 | The innermost loop fills the `grid` consecutive positions of the nodes `(R, G, 0) .. (R, G, grid-1)` and leaves every later position untouched. |
| LutGenerator.SampleNode | Qubyx3DLUTGenerator/qubyx3dlutgenerator.cpp:38-53 | One pass of the inner loop extends the filled prefix by exactly one position and touches nothing after it. |
| LutGenerator.FilledStep | Qubyx3DLUTGenerator/qubyx3dlutgenerator.cpp:48-53 | Writing the three channels of position `i` turns a filled prefix of length `i` into one of length `i + 1`. If buffers are shared, the later write of a position wins. |
| LutGenerator.UntouchedStep | Qubyx3DLUTGenerator/qubyx3dlutgenerator.cpp:48-53 | A write at position `i` keeps every position after `i` at its original value. |
| LutGenerator.FilledNode | Qubyx3DLUTGenerator/qubyx3dlutgenerator.cpp:36-53 | In a filled table, the position `R·grid² + G·grid + B` of every node lies below grid³. It holds the rounded chain output of that node's input in blue. It holds the same in green and red when those buffers are distinct. |
| LutGenerator.DecomposeCellIndex | Qubyx3DLUTGenerator/qubyx3dlutgenerator.cpp:36-53 | The node stored at `R·grid² + G·grid + B` is read back as `(R, G, B)`. |
| LutGenerator.CellIndexInRange | Qubyx3DLUTGenerator/qubyx3dlutgenerator.cpp:36-53 | Every node's position lies in `[0, grid³)`. |
| LutGenerator.CellIndexDecompose | Qubyx3DLUTGenerator/qubyx3dlutgenerator.cpp:36-53 | Every position in `[0, grid³)` decodes to a node of the grid whose position it is. |
| LutGenerator.CellIndexUnique | Qubyx3DLUTGenerator/qubyx3dlutgenerator.cpp:36-53 | No other node of the grid sits at that position: a grid node at position `i` is the node `i` decodes to. With `CellIndexDecompose`, every position belongs to exactly one node. |
| LutGenerator.CellIndexOrder | Qubyx3DLUTGenerator/qubyx3dlutgenerator.cpp:36-38 | Positions are ordered as the loops visit nodes: B varies fastest, then G, then R. This holds in both directions. |
| LutGenerator.WrappedIndex | Qubyx3DLUTGenerator/qubyx3dlutgenerator.cpp:35-53 | The unsigned running position after `i` increments equals `i` exactly when `i < 2³²`. |
| LutGenerator.IndexWrapsBeyondLimit | Qubyx3DLUTGenerator/qubyx3dlutgenerator.cpp:35-53 | grid³ ≤ 2³² holds up to 1625 nodes per axis and fails at 1626. There the node `(1624, 807, 490)` lies in the grid at position 2³², which the unsigned position wraps onto the position of `(0, 0, 0)`. |
| LutGenerator.InputInUnitCube | Qubyx3DLUTGenerator/qubyx3dlutgenerator.cpp:42-44 | Node inputs `c / (grid - 1)` lie in the unit cube. `(0,0,0)` gets all zeros and `(grid-1, grid-1, grid-1)` gets all ones. |
| ChromaticAdaptation.CalcChromaticAdaptation | QubyxProfile.cpp:150-277 | Nine entries, built with the table pair chosen by the type (Bradford by default). The matrix carries the source white to `inv · fwd` applied to the PCS white, which is the PCS white itself up to the rounding of the inverse table. |
| ChromaticAdaptation.Forward | QubyxProfile.cpp:236-255 | The forward cone table chosen for each method has nine entries. |
| ChromaticAdaptation.Inverse | QubyxProfile.cpp:236-255 | The inverse cone table chosen for each method has nine entries. |
| ChromaticAdaptation.Gains | QubyxProfile.cpp:258-273 | Each gain times the source white's cone response equals the PCS white's cone response. |
| ChromaticAdaptation.GainsCarrySourceCones | QubyxProfile.cpp:258-273 | Scaling the source cones by the gains gives the PCS cones. |
| ChromaticAdaptation.MatMulAsDots | QubyxProfile.cpp:274-276 | The product, in row-major order, is the nine row-by-column products `row i of l · column j of r`. |
| ChromaticAdaptation.MatMulEntry | QubyxProfile.cpp:274-276 | Entry `(i, j)` of the product is row `i` of the left factor times column `j` of the right factor. |
| ChromaticAdaptation.DiagScalesRows | QubyxProfile.cpp:264-275 | Multiplying by the scaling buffer, whose six off-diagonal entries are zero, scales the rows of `fwd`. |
| ChromaticAdaptation.DiagScalesCones | QubyxProfile.cpp:264-275 | The scaling buffer scales each cone response by its own gain. |
| ChromaticAdaptation.MatVecMul | QubyxProfile.cpp:274-276 | Applying the product matrix equals applying its factors in turn. |
| ChromaticAdaptation.AdaptationFactors | QubyxProfile.cpp:258-276 | The result acts on any point as: project to cones with `fwd`, scale each cone by its gain, project back with `inv`. |
| ChromaticAdaptation.AdaptationMapsWhite | QubyxProfile.cpp:258-276 | With an exact inverse pair, the matrix carries the source white exactly onto the PCS white. |
| ChromaticAdaptation.SameWhiteIsInverseTimesForward | QubyxProfile.cpp:258-276 | Adapting a white to itself gives `inv · fwd`. |
| ChromaticAdaptation.TablesNearlyInverse | QubyxProfile.cpp:153-234 | For every method, the tabulated inverse times the forward table lies within 10⁻⁶ of the identity, entry by entry. |
| ChromaticAdaptation.BradfordInverseIsInexact | QubyxProfile.cpp:153-176 | The Bradford inverse table is not an exact inverse. |
| ChromaticAdaptation.SameWhiteNearIdentity | QubyxProfile.cpp:150-277 | For every method, adapting a white to itself gives a matrix within 10⁻⁶ of the identity. |
| ChromaticAdaptation.AdaptedWhiteIsTableProduct | QubyxProfile.cpp:258-276 | For any cone pair, the adapted source white equals `(inv · fwd)` applied to the PCS white. |
| ChromaticAdaptation.AdaptedWhiteNearPcs | QubyxProfile.cpp:150-277 | For every method, the adapted source white lands within `3·10⁻⁶·bound` of the PCS white. |
| ChromaticAdaptation.NearIdentityNearlyFixes | QubyxProfile.cpp:274-276 | A matrix within 10⁻⁶ of the identity moves a point bounded by `bound` by at most `3·10⁻⁶·bound`. |
| ChromaticAdaptation.ApplyChromaticAdaptationFixed | QubyxProfile.cpp:350-363 | The function returns true. XYZ becomes `m · XYZ`, with every component computed from the old point, even when `m` is the same array as the point. |
| ChromaticAdaptation.ApplyChromaticAdaptation | QubyxProfile.cpp:365-399 | The result is true exactly when the matrix has at least nine entries. Otherwise XYZ is unchanged. When true, XYZ becomes `m · XYZ` of the old point. |
| ChromaticAdaptation.Compensate | QubyxProfile.cpp:279-284 | The mapped channel `q` lies on the straight line through `(0, black)` and `(white, white)`: `(q − black)·white = p·(white − black)`. |
| ChromaticAdaptation.CompensateFixesWhite | QubyxProfile.cpp:279-284 | 0 maps to black and white maps to itself. A zero black point changes nothing. |
| ChromaticAdaptation.CompensateRoundTrip | QubyxProfile.cpp:279-284 | When black ≠ white, the channel mapping and its inverse undo each other. |
| ChromaticAdaptation.CompensateMonotone | QubyxProfile.cpp:279-284 | For `0 ≤ black < white` the channel mapping preserves order. |
| ChromaticAdaptation.PerceptualTransform | QubyxProfile.cpp:279-284 | Each of the three channels becomes `p·(1 − b/w) + b` of its old value. This holds even when the point is the same array as white or black. Later entries are unchanged. |
| MinMaxEval.DesStep | QubyxProfile.cpp:521-550 | A new comparison appends its difference. |
| MinMaxEval.RecordStep | QubyxProfile.cpp:526-550 | One more comparison takes the minimum to a strictly smaller difference and adds the difference to the sum. It replaces the maximum, Lab value and pixel only when the difference is strictly larger. |
| MinMaxEval.LeastIsLowerBound | QubyxProfile.cpp:509-528 | The running minimum is at most 10000 and at most every difference seen. |
| MinMaxEval.LeastIsAttained | QubyxProfile.cpp:509-528 | The running minimum is 10000 or one of the differences seen. |
| MinMaxEval.PeakIsUpperBound | QubyxProfile.cpp:510-545 | The running maximum is at least −1 and at least every difference seen. |
| MinMaxEval.PeakIsFirstMaximum | QubyxProfile.cpp:510-545 | The recorded maximum, Lab value and pixel are either the initial ones (−1, zeros, zeros) or belong to the earliest comparison that reaches the maximum. Every earlier difference is strictly smaller, so ties keep the earliest. |
| MinMaxEval.TotalBounded | QubyxProfile.cpp:546-550 | A sum of `n` values in `[lo, hi]` lies in `[n·lo, n·hi]`. |
| MinMaxEval.MeanBetweenExtremes | QubyxProfile.h:25-26 | The mean of a non-empty record lies between its running minimum and maximum. |
| MinMaxEval.CIccMinMaxEval.constructor | QubyxProfile.cpp:507-519 | Minimum 10000, maximum −1, zero sums and counts, zero Lab values and pixels, and an empty record. |
| MinMaxEval.CIccMinMaxEval.Compare | QubyxProfile.cpp:521-551 | The comparison is appended to the record and `Valid()` is kept. Each field takes exactly its one step: the minimum on `<`, the maximum on `>` together with the copied device Lab value and pixel, the sum by the difference, and the count by 1. |
| MinMaxEval.CIccMinMaxEval.TrackFirst | QubyxProfile.cpp:526-547 | The first difference's fields take one step. The minimum is replaced on `<`. The maximum is replaced on `>`, together with the device Lab value and the pixel. The sum grows by the difference and the count by 1. |
| MinMaxEval.CIccMinMaxEval.TrackSecond | QubyxProfile.cpp:536-550 | The same step for the second difference's fields. |
| MinMaxEval.CopyTriple | QubyxProfile.cpp:532-533 | The three-entry buffer receives the first three entries of the source, as each `memcpy` does. |
| MinMaxEval.CIccMinMaxEval.GetMean1 | QubyxProfile.h:25 | `sum1 / num1` is the mean of all first differences, between `minDE1` and `maxDE1`. |
| MinMaxEval.CIccMinMaxEval.GetMean2 | QubyxProfile.h:26 | `sum2 / num2` is the mean of all second differences, between `minDE2` and `maxDE2`. |
| Profile.SpecString | QubyxProfile.cpp:687-697 | A three-character version string `d.d`, with major digit 4 exactly for ICC v4. |
| Profile.SpecNumber | QubyxProfile.cpp:699-709 | A two-digit version number. |
| Profile.SpecNumberMatchesString | QubyxProfile.cpp:687-709 | The number is the string's two digits: 21 for "2.1", 40 for "4.0". |
| Profile.SpecEncodingsInjective | QubyxProfile.cpp:687-709 | Distinct specifications get distinct strings and distinct numbers. |
| Profile.QubyxProfile.constructor | QubyxProfile.cpp:23-40 | RGB in, XYZ out, ICC v4, no description, no device name, type shown. The new profile is not a Lab profile. |
| Profile.QubyxProfile.FromPath | QubyxProfile.cpp:42-60 | The same, with the file name set to the path. The new profile is not a Lab profile. |
| Profile.QubyxProfile.MakeProfileTitle | QubyxProfile.cpp:116-135 | The title begins with the description and a space, or with the device name and " -". The type is at the end unless it is skipped. A skipped type leaves a trailing space. The title's length is exactly the sum of those parts. |
| Profile.QubyxProfile.TitleDeterminesType | QubyxProfile.cpp:116-135 | With the type shown, different types give different titles. |
| Profile.QubyxProfile.TitleIgnoresSkippedType | QubyxProfile.cpp:116-135 | With the type skipped, the title does not depend on the type. |
| Profile.QubyxProfile.SetOptionalDescription | QubyxProfile.cpp:671-675 | Sets the description, and shows the type exactly when `useType` (default true). With a non-empty text, every title becomes `text + " " + type` or `text + " "`. |
| Profile.QubyxProfile.SetDeviceName | QubyxProfile.cpp:292-296 | Sets the device name and shows the type again. Without a description and with a non-empty name, every title becomes `name + " - " + type + " "`. Without a description and with an empty name, the `" -"` is dropped and every title becomes `" " + type + " "`. |
| Profile.QubyxProfile.SetICCspecification | QubyxProfile.cpp:677-680 | Sets the specification and nothing else. |
| Profile.QubyxProfile.ICCspecificationAsString | QubyxProfile.cpp:687-697 | "2.1" exactly for ICC v2 and "4.0" exactly for ICC v4. |
| Profile.QubyxProfile.ICCspecificationAsInt | QubyxProfile.cpp:699-709 | The number made of the version string's two digits. |
| Profile.QubyxProfile.SetColorSpaces | QubyxProfile.cpp:286-290 | Sets the two spaces and nothing else. Afterwards the profile is a Lab profile exactly when one of the new spaces is Lab or the header already names Lab. |

`Profile.QubyxProfile.IsLabProfile` is the definition of `isLabProfile` (QubyxProfile.cpp:137-143). Its properties are stated in the postconditions of the two constructors and of `SetColorSpaces`.

## Left out

- Profile loading, the profile chain and rounding are passed to `GenerateLut` as functions, because their code is not part of this model:
  - `LoadFromFile` and the ICC library it calls;
  - `QubyxProfileChain` (its construction, `addProfile`, `transform`);
  - the `round` of a double followed by its conversion to `unsigned int`.
- No clamping before quantisation. The sampling loop writes `round(out·65535)` of the raw chain output without clamping to [0, 1], and the model follows that code. The model therefore makes no claim that buffer values lie in [0, 65535]. A clamp would be the safer design, but the code has none.
- Floating point: every colour computation is over exact reals. Float rounding, overflow, NaN and infinities are not modelled.
- LutGenerator.GenerateLut: when the grid is valid, the three buffers are non-null and both profiles load, it requires buffers of at least grid³ entries. Shorter buffers are written out of bounds, which is undefined behaviour in C.
- LutGenerator.GenerateLut: also requires grid³ ≤ 2³², that is at most 1625 nodes per axis. Beyond that the unsigned running index wraps modulo 2³², which is defined behaviour: node `k` is written at `k mod 2³²`, later nodes overwrite the first samples, and positions from 2³² on are never written. The model does not describe that table. `WrappedIndex` and `IndexWrapsBeyondLimit` record where the wrap begins.
- LutGenerator.GenerateLut: the red and green samples are claimed only for a buffer that is distinct from the buffers written after it. When buffers are shared, the later write wins.
- ChromaticAdaptation.CalcChromaticAdaptation: requires the source white's three cone responses to be nonzero. The code divides by them unchecked.
- ChromaticAdaptation.CalcChromaticAdaptation: the tabulated inverse cone matrices are rounded. The white-to-white property is therefore proved exactly only for an exact inverse pair (`AdaptationMapsWhite`), and to within 10⁻⁶ for the shipped tables (`AdaptedWhiteNearPcs`, `SameWhiteNearIdentity`).
- ChromaticAdaptation.CalcChromaticAdaptation: a `ChromaType` value outside the three enumerators falls back to the Bradford tables, which are the initial values before the `switch`. The model's `ChromaType` has only the three enumerators, so that fallback is not modelled.
- ChromaticAdaptation.MatMul: `icMatrixMultiply3x3` belongs to the ICC library and its code is not part of this model. It is modelled as the standard row-major product of its second and third arguments, in that order, stored into its first.
- ChromaticAdaptation.PerceptualTransform: requires every white channel to be nonzero. The code divides by it unchecked.
- ChromaticAdaptation.ApplyChromaticAdaptation: models both vector-matrix overloads at once. The point is a buffer of at least three entries in both.
- MinMaxEval.CIccMinMaxEval.Compare: receives the two colour differences as inputs, because `icDeltaE` is part of the ICC library. The Lab values they are computed from are therefore not parameters.
- MinMaxEval.CIccMinMaxEval.Compare: requires the pixel and device Lab buffers to be distinct from all four of the accumulator's own arrays. Two kinds of call are excluded for different reasons:
  - A device Lab buffer that is `maxLab1` or `maxLab2`, or a pixel buffer that is `maxPixel1` or `maxPixel2`, makes a `memcpy` copy a buffer onto itself. That is undefined behaviour.
  - The cross-aliased calls are well defined in the code: a pixel buffer that is `maxLab1` or `maxLab2`, or a device Lab buffer that is `maxPixel1` or `maxPixel2`. There the copies run in source order, so a later copy reads what an earlier one wrote. For example, with the pixel buffer being `maxLab1` and a new first maximum, `maxLab1` first receives the device Lab value and `maxPixel1` then receives that new value rather than the old pixel. The model excludes these calls too, so it does not describe that outcome.
- MinMaxEval.CIccMinMaxEval.GetMean1: requires at least one comparison. With none, the code divides 0 by 0.
- MinMaxEval.CIccMinMaxEval.GetMean2: requires at least one comparison, for the same reason.
- Profile.QubyxProfile.ICCspecificationAsString: the fallback after the switch ("4.0") cannot be reached with a two-valued specification, so it is not modelled.
- Profile.QubyxProfile.ICCspecificationAsInt: the fallback after the switch (40) cannot be reached with a two-valued specification, so it is not modelled.
- Profile.QubyxProfile.IsLabProfile: the header's colour space and connection space change only when a profile is loaded, and loading is not modelled. Both stay zero here, as in an empty header.
- The remaining `QubyxProfile` members are not modelled because they are thin wrappers over the ICC library:
  - tag reading and writing, curves, luminance, validation and saving;
  - the copy constructor and assignment;
  - `denySaving`, `deviceColorDimention`, `profilePath`;
  - the stored chromatic-adaptation arrays, `maxY_` and `devDim_`.
- `test.c` is not modelled. It is a DLL-loading test program with no logic of its own.
- The root copy of `qubyx3dlutgenerator.h` is not modelled. It duplicates the status enumeration under other names.

=== FILE: chromatic_adaptation.dfy ===
/**
 * Colour arithmetic of QubyxProfile over exact reals: the chromatic-adaptation
 * matrix built from a cone-response table (Bradford, CAT02, von Kries), its
 * in-place application to an XYZ point, and the per-channel black-point
 * mapping of perceptualTransform.
 *
 * A 3x3 matrix is a row-major sequence of nine reals, as in the source's
 * nine-entry buffers; a colour is a sequence of (at least) three reals.
 */
module ChromaticAdaptation {

  /** The adaptation methods of QubyxProfile::ChromaType. */
  datatype ChromaType = ChromaBradford | ChromaCAT02 | ChromaVonKries

  /** Entry (i, j) of a row-major 3x3 matrix. */
  function At(m: seq<real>, i: nat, j: nat): real
    requires |m| >= 9 && i < 3 && j < 3
  {
    m[3 * i + j]
  }

  /** The product m . v of a matrix and a three-component column. */
  function MatVec(m: seq<real>, v: seq<real>): (r: seq<real>)
    requires |m| >= 9 && |v| >= 3
    ensures |r| == 3
  {
    [m[0] * v[0] + m[1] * v[1] + m[2] * v[2],
     m[3] * v[0] + m[4] * v[1] + m[5] * v[2],
     m[6] * v[0] + m[7] * v[1] + m[8] * v[2]]
  }

  /** The matrix product a . b, which icMatrixMultiply3x3 is taken to compute. */
  function MatMul(a: seq<real>, b: seq<real>): (r: seq<real>)
    requires |a| >= 9 && |b| >= 9
    ensures |r| == 9
  {
    [a[0] * b[0] + a[1] * b[3] + a[2] * b[6],
     a[0] * b[1] + a[1] * b[4] + a[2] * b[7],
     a[0] * b[2] + a[1] * b[5] + a[2] * b[8],
     a[3] * b[0] + a[4] * b[3] + a[5] * b[6],
     a[3] * b[1] + a[4] * b[4] + a[5] * b[7],
     a[3] * b[2] + a[4] * b[5] + a[5] * b[8],
     a[6] * b[0] + a[7] * b[3] + a[8] * b[6],
     a[6] * b[1] + a[7] * b[4] + a[8] * b[7],
     a[6] * b[2] + a[7] * b[5] + a[8] * b[8]]
  }

  /** Row i of a times column j of b. */
  function Dot(a: seq<real>, i: nat, b: seq<real>, j: nat): real
    requires |a| >= 9 && |b| >= 9 && i < 3 && j < 3
  {
    At(a, i, 0) * At(b, 0, j) + At(a, i, 1) * At(b, 1, j) + At(a, i, 2) * At(b, 2, j)
  }

  /** Entry (i, j) of the product is row i of a times column j of b. */
  lemma MatMulEntry(a: seq<real>, b: seq<real>, i: nat, j: nat)
    requires |a| >= 9 && |b| >= 9 && i < 3 && j < 3
    ensures At(MatMul(a, b), i, j) == Dot(a, i, b, j)
  {
    MatMulAsDots(a, b);
    if i == 0 {
      if j == 0 {} else if j == 1 {} else {}
    } else if i == 1 {
      if j == 0 {} else if j == 1 {} else {}
    } else {
      if j == 0 {} else if j == 1 {} else {}
    }
  }

  /** The product, entry by entry in row-major order, as row-by-column products. */
  lemma MatMulAsDots(a: seq<real>, b: seq<real>)
    requires |a| >= 9 && |b| >= 9
    ensures MatMul(a, b) == [Dot(a, 0, b, 0), Dot(a, 0, b, 1), Dot(a, 0, b, 2),
                             Dot(a, 1, b, 0), Dot(a, 1, b, 1), Dot(a, 1, b, 2),
                             Dot(a, 2, b, 0), Dot(a, 2, b, 1), Dot(a, 2, b, 2)]
  {
    var m := MatMul(a, b);
    assert m[0] == Dot(a, 0, b, 0);
    assert m[1] == Dot(a, 0, b, 1);
    assert m[2] == Dot(a, 0, b, 2);
    assert m[3] == Dot(a, 1, b, 0);
    assert m[4] == Dot(a, 1, b, 1);
    assert m[5] == Dot(a, 1, b, 2);
    assert m[6] == Dot(a, 2, b, 0);
    assert m[7] == Dot(a, 2, b, 1);
    assert m[8] == Dot(a, 2, b, 2);
  }

  /** The diagonal matrix diag(s0, s1, s2), six zero entries off the diagonal. */
  function Diag(s0: real, s1: real, s2: real): (r: seq<real>)
    ensures |r| == 9
  {
    [s0, 0.0, 0.0,
     0.0, s1, 0.0,
     0.0, 0.0, s2]
  }

  const Identity: seq<real> := Diag(1.0, 1.0, 1.0)

  /** Tolerance of the published inverse tables. */
  const Tolerance: real := 1.0 / 1000000.0

  // Linearised Bradford cone matrix (ICC.1 Annex E) and its tabulated inverse.
  const FwdBradford: seq<real> :=
    [0.8951, 0.2664, -0.1614,
     -0.7502, 1.7135, 0.0367,
     0.0389, -0.0685, 1.0296]
  const InvBradford: seq<real> :=
    [0.9869929, -0.1470543, 0.1599627,
     0.4323053, 0.5183603, 0.0492912,
     -0.00852866, 0.0400428, 0.9684867]

  // CIECAM02 (CAT02) cone matrix and its tabulated inverse.
  const FwdCAT02: seq<real> :=
    [0.7328, 0.4296, -0.1624,
     -0.7036, 1.6975, 0.0061,
     0.0030, 0.0136, 0.9834]
  const InvCAT02: seq<real> :=
    [1.096123820835514, -0.278869000218287, 0.182745179382773,
     0.454369041975359, 0.473533154307412, 0.072097803717229,
     -0.009627608738429, -0.005698031216113, 1.015325639954543]

  // Von Kries cone matrix and its tabulated inverse.
  const FwdVonKries: seq<real> :=
    [0.4002400, 0.7076, -0.08081,
     -0.2263, 1.16532, 0.0457,
     0.0, 0.0, 0.91822]
  const InvVonKries: seq<real> :=
    [1.8599364, -1.1293816, 0.2198974,
     0.3611914, 0.6388125, -0.0000064,
     0.0, 0.0, 1.0890636]

  /** The forward cone-response matrix chosen for a method. */
  function Forward(t: ChromaType): (f: seq<real>)
    ensures |f| == 9
  {
    match t
    case ChromaBradford => FwdBradford
    case ChromaCAT02 => FwdCAT02
    case ChromaVonKries => FwdVonKries
  }

  /** The inverse cone-response matrix chosen for a method. */
  function Inverse(t: ChromaType): (g: seq<real>)
    ensures |g| == 9
  {
    match t
    case ChromaBradford => InvBradford
    case ChromaCAT02 => InvCAT02
    case ChromaVonKries => InvVonKries
  }

  /** No cone response of the source white is zero, so every scale factor is defined. */
  predicate NonDegenerate(fwd: seq<real>, src: seq<real>)
    requires |fwd| >= 9 && |src| >= 3
  {
    var c := MatVec(fwd, src);
    c[0] != 0.0 && c[1] != 0.0 && c[2] != 0.0
  }

  /** Per-cone gains rho_PCS / rho_src, gamma_PCS / gamma_src, beta_PCS / beta_src. */
  function Gains(fwd: seq<real>, pcs: seq<real>, src: seq<real>): (g: seq<real>)
    requires |fwd| >= 9 && |pcs| >= 3 && |src| >= 3 && NonDegenerate(fwd, src)
    ensures |g| == 3
    ensures forall k | 0 <= k < 3 :: g[k] * MatVec(fwd, src)[k] == MatVec(fwd, pcs)[k]
  {
    var p := MatVec(fwd, pcs);
    var s := MatVec(fwd, src);
    [p[0] / s[0], p[1] / s[1], p[2] / s[2]]
  }

  /** Multiplies each cone response by its gain. */
  function ScaleCones(g: seq<real>, c: seq<real>): (r: seq<real>)
    requires |g| >= 3 && |c| >= 3
    ensures |r| == 3
  {
    [g[0] * c[0], g[1] * c[1], g[2] * c[2]]
  }

  /** diag(g) . m scales row k of m by g[k]. */
  function ScaleRows(g: seq<real>, m: seq<real>): (r: seq<real>)
    requires |g| >= 3 && |m| >= 9
    ensures |r| == 9
  {
    [g[0] * m[0], g[0] * m[1], g[0] * m[2],
     g[1] * m[3], g[1] * m[4], g[1] * m[5],
     g[2] * m[6], g[2] * m[7], g[2] * m[8]]
  }

  /** inv . diag(gains) . fwd for an arbitrary cone pair: the construction of calcChromaticAdaptation. */
  function AdaptationMatrix(fwd: seq<real>, inv: seq<real>, pcs: seq<real>, src: seq<real>): (r: seq<real>)
    requires |fwd| == 9 && |inv| == 9 && |pcs| >= 3 && |src| >= 3 && NonDegenerate(fwd, src)
    ensures |r| == 9
  {
    var g := Gains(fwd, pcs, src);
    var scaling := Diag(g[0], g[1], g[2]);
    MatMul(inv, MatMul(scaling, fwd))
  }

  /**
   * The nine-entry matrix carrying the source white towards the PCS white
   * by the chosen method (Bradford when none is given).
   */
  function CalcChromaticAdaptation(pcs: seq<real>, src: seq<real>, t: ChromaType := ChromaBradford): (r: seq<real>)
    requires |pcs| >= 3 && |src| >= 3 && NonDegenerate(Forward(t), src)
    ensures |r| == 9
    // the source white lands where the table pair sends the PCS white
    ensures MatVec(r, src) == MatVec(MatMul(Inverse(t), Forward(t)), pcs)
  {
    AdaptedWhiteIsTableProduct(Forward(t), Inverse(t), pcs, src);
    AdaptationMatrix(Forward(t), Inverse(t), pcs, src)
  }

  /** Multiplying by the scaling buffer (diagonal, zeros elsewhere) scales rows. */
  lemma DiagScalesRows(g: seq<real>, m: seq<real>)
    requires |g| >= 3 && |m| >= 9
    ensures MatMul(Diag(g[0], g[1], g[2]), m) == ScaleRows(g, m)
  {
    var l, r := MatMul(Diag(g[0], g[1], g[2]), m), ScaleRows(g, m);
    forall k | 0 <= k < 9 ensures l[k] == r[k] { }
  }

  /** Applying the scaling buffer scales each cone by its gain. */
  lemma DiagScalesCones(g: seq<real>, c: seq<real>)
    requires |g| >= 3 && |c| >= 3
    ensures MatVec(Diag(g[0], g[1], g[2]), c) == ScaleCones(g, c)
  {
    var l, r := MatVec(Diag(g[0], g[1], g[2]), c), ScaleCones(g, c);
    assert l[0] == r[0] && l[1] == r[1] && l[2] == r[2];
  }

  /** The identity matrix leaves a point unchanged. */
  lemma IdentityFixes(v: seq<real>)
    requires |v| >= 3
    ensures MatVec(Identity, v) == v[..3]
  {
    var l := MatVec(Identity, v);
    assert l[0] == v[0] && l[1] == v[1] && l[2] == v[2];
  }

  /** Scaling the source white's cones by the gains gives the PCS white's cones. */
  lemma GainsCarrySourceCones(fwd: seq<real>, pcs: seq<real>, src: seq<real>)
    requires |fwd| >= 9 && |pcs| >= 3 && |src| >= 3 && NonDegenerate(fwd, src)
    ensures ScaleCones(Gains(fwd, pcs, src), MatVec(fwd, src)) == MatVec(fwd, pcs)
  {
    var g, s, p := Gains(fwd, pcs, src), MatVec(fwd, src), MatVec(fwd, pcs);
    var l := ScaleCones(g, s);
    assert l[0] == g[0] * s[0] == p[0];
    assert l[1] == g[1] * s[1] == p[1];
    assert l[2] == g[2] * s[2] == p[2];
  }

  /** Applying a product is applying its factors in turn. */
  lemma MatVecMul(a: seq<real>, b: seq<real>, v: seq<real>)
    requires |a| >= 9 && |b| >= 9 && |v| >= 3
    ensures MatVec(MatMul(a, b), v) == MatVec(a, MatVec(b, v))
  {
    var m, bv := MatMul(a, b), MatVec(b, v);
    var l, r := MatVec(m, v), MatVec(a, bv);
    RowComposes(a[0], a[1], a[2], m[0], m[1], m[2], b, v, bv);
    RowComposes(a[3], a[4], a[5], m[3], m[4], m[5], b, v, bv);
    RowComposes(a[6], a[7], a[8], m[6], m[7], m[8], b, v, bv);
    assert l[0] == r[0] && l[1] == r[1] && l[2] == r[2];
  }

  /**
   * One row (x0, x1, x2) of a: its row (m0, m1, m2) of a . b, applied to v,
   * is the row applied to bv = b . v.
   */
  lemma RowComposes(x0: real, x1: real, x2: real, m0: real, m1: real, m2: real,
                    b: seq<real>, v: seq<real>, bv: seq<real>)
    requires |b| >= 9 && |v| >= 3 && |bv| >= 3
    requires m0 == x0 * b[0] + x1 * b[3] + x2 * b[6]
    requires m1 == x0 * b[1] + x1 * b[4] + x2 * b[7]
    requires m2 == x0 * b[2] + x1 * b[5] + x2 * b[8]
    requires bv[0] == b[0] * v[0] + b[1] * v[1] + b[2] * v[2]
    requires bv[1] == b[3] * v[0] + b[4] * v[1] + b[5] * v[2]
    requires bv[2] == b[6] * v[0] + b[7] * v[1] + b[8] * v[2]
    ensures m0 * v[0] + m1 * v[1] + m2 * v[2] == x0 * bv[0] + x1 * bv[1] + x2 * bv[2]
  {
  }

  /**
   * The adaptation matrix acts on any XYZ point as: project to cones with fwd,
   * scale each cone by its gain, project back with inv.
   */
  lemma AdaptationFactors(fwd: seq<real>, inv: seq<real>, pcs: seq<real>, src: seq<real>, x: seq<real>)
    requires |fwd| == 9 && |inv| == 9 && |pcs| >= 3 && |src| >= 3 && |x| >= 3
    requires NonDegenerate(fwd, src)
    ensures MatVec(AdaptationMatrix(fwd, inv, pcs, src), x)
         == MatVec(inv, ScaleCones(Gains(fwd, pcs, src), MatVec(fwd, x)))
  {
    var g := Gains(fwd, pcs, src);
    var scaling := Diag(g[0], g[1], g[2]);
    MatVecMul(inv, MatMul(scaling, fwd), x);
    MatVecMul(scaling, fwd, x);
    DiagScalesCones(g, MatVec(fwd, x));
  }

  /** With an exact inverse pair, the matrix carries the source white exactly onto the PCS white. */
  lemma AdaptationMapsWhite(fwd: seq<real>, inv: seq<real>, pcs: seq<real>, src: seq<real>)
    requires |fwd| == 9 && |inv| == 9 && |pcs| >= 3 && |src| >= 3
    requires NonDegenerate(fwd, src)
    requires MatMul(inv, fwd) == Identity
    ensures MatVec(AdaptationMatrix(fwd, inv, pcs, src), src) == pcs[..3]
  {
    AdaptedWhiteIsTableProduct(fwd, inv, pcs, src);
    IdentityFixes(pcs);
  }

  /** Adapting a white to itself leaves only inv . fwd. */
  lemma {:induction false} SameWhiteIsInverseTimesForward(fwd: seq<real>, inv: seq<real>, w: seq<real>)
    requires |fwd| == 9 && |inv| == 9 && |w| >= 3 && NonDegenerate(fwd, w)
    ensures AdaptationMatrix(fwd, inv, w, w) == MatMul(inv, fwd)
  {
    var g, c := Gains(fwd, w, w), MatVec(fwd, w);
    assert g[0] == c[0] / c[0] == 1.0;
    assert g[1] == c[1] / c[1] == 1.0;
    assert g[2] == c[2] / c[2] == 1.0;
    DiagScalesRows(g, fwd);
    var sr := ScaleRows(g, fwd);
    forall k | 0 <= k < 9
      ensures sr[k] == fwd[k]
    {
    }
    assert sr == fwd;
  }

  /** The tabulated inverses are inverses to within Tolerance, entry by entry, for every method. */
  lemma TablesNearlyInverse(t: ChromaType)
    ensures forall k | 0 <= k < 9 ::
      -Tolerance < MatMul(Inverse(t), Forward(t))[k] - Identity[k] < Tolerance
  {
  }

  /** The Bradford inverse table is only approximate, so the identity below cannot be claimed exactly. */
  lemma BradfordInverseIsInexact()
    ensures MatMul(InvBradford, FwdBradford) != Identity
  {
    assert MatMul(InvBradford, FwdBradford)[0] != 1.0;
  }

  /** calcChromaticAdaptation(w, w) is the identity to within Tolerance for every method. */
  lemma SameWhiteNearIdentity(w: seq<real>, t: ChromaType)
    requires |w| >= 3 && NonDegenerate(Forward(t), w)
    ensures forall k | 0 <= k < 9 ::
      -Tolerance < CalcChromaticAdaptation(w, w, t)[k] - Identity[k] < Tolerance
  {
    SameWhiteIsInverseTimesForward(Forward(t), Inverse(t), w);
    TablesNearlyInverse(t);
  }

  /**
   * The adapted source white lands within 3 * Tolerance * bound of the PCS
   * white, for a PCS white whose components lie in [-bound, bound].
   */
  lemma AdaptedWhiteNearPcs(pcs: seq<real>, src: seq<real>, t: ChromaType, bound: real)
    requires |pcs| >= 3 && |src| >= 3 && NonDegenerate(Forward(t), src)
    requires forall k | 0 <= k < 3 :: -bound <= pcs[k] <= bound
    ensures forall i | 0 <= i < 3 ::
      var x := MatVec(CalcChromaticAdaptation(pcs, src, t), src)[i];
      -3.0 * Tolerance * bound <= x - pcs[i] <= 3.0 * Tolerance * bound
  {
    TablesNearlyInverse(t);
    NearIdentityNearlyFixes(MatMul(Inverse(t), Forward(t)), pcs, bound);
  }

  /** The adapted source white is (inv . fwd) applied to the PCS white. */
  lemma AdaptedWhiteIsTableProduct(fwd: seq<real>, inv: seq<real>, pcs: seq<real>, src: seq<real>)
    requires |fwd| == 9 && |inv| == 9 && |pcs| >= 3 && |src| >= 3 && NonDegenerate(fwd, src)
    ensures MatVec(AdaptationMatrix(fwd, inv, pcs, src), src) == MatVec(MatMul(inv, fwd), pcs)
  {
    AdaptationFactors(fwd, inv, pcs, src, src);
    GainsCarrySourceCones(fwd, pcs, src);
    MatVecMul(inv, fwd, pcs);
  }

  /** A matrix within Tolerance of the identity moves a point bounded by bound by at most 3 * Tolerance * bound. */
  lemma NearIdentityNearlyFixes(e: seq<real>, p: seq<real>, bound: real)
    requires |e| == 9 && |p| >= 3
    requires forall k | 0 <= k < 9 :: -Tolerance < e[k] - Identity[k] < Tolerance
    requires forall k | 0 <= k < 3 :: -bound <= p[k] <= bound
    ensures forall i | 0 <= i < 3 ::
      -3.0 * Tolerance * bound <= MatVec(e, p)[i] - p[i] <= 3.0 * Tolerance * bound
  {
    var x := MatVec(e, p);
    assert Identity == [1.0, 0.0, 0.0, 0.0, 1.0, 0.0, 0.0, 0.0, 1.0];
    assert -Tolerance < e[0] - 1.0 < Tolerance && -Tolerance < e[1] < Tolerance && -Tolerance < e[2] < Tolerance;
    RowNearZero(e[0] - 1.0, e[1], e[2], p, bound);
    assert x[0] - p[0] == (e[0] - 1.0) * p[0] + e[1] * p[1] + e[2] * p[2];
    assert -Tolerance < e[3] < Tolerance && -Tolerance < e[4] - 1.0 < Tolerance && -Tolerance < e[5] < Tolerance;
    RowNearZero(e[3], e[4] - 1.0, e[5], p, bound);
    assert x[1] - p[1] == e[3] * p[0] + (e[4] - 1.0) * p[1] + e[5] * p[2];
    assert -Tolerance < e[6] < Tolerance && -Tolerance < e[7] < Tolerance && -Tolerance < e[8] - 1.0 < Tolerance;
    RowNearZero(e[6], e[7], e[8] - 1.0, p, bound);
    assert x[2] - p[2] == e[6] * p[0] + e[7] * p[1] + (e[8] - 1.0) * p[2];
  }

  /** Three entries below Tolerance against a point bounded by bound give a sum within 3 * Tolerance * bound. */
  lemma RowNearZero(d0: real, d1: real, d2: real, p: seq<real>, bound: real)
    requires |p| >= 3 && forall k | 0 <= k < 3 :: -bound <= p[k] <= bound
    requires -Tolerance < d0 < Tolerance && -Tolerance < d1 < Tolerance && -Tolerance < d2 < Tolerance
    ensures -3.0 * Tolerance * bound <= d0 * p[0] + d1 * p[1] + d2 * p[2] <= 3.0 * Tolerance * bound
  {
    SmallProduct(d0, p[0], bound);
    SmallProduct(d1, p[1], bound);
    SmallProduct(d2, p[2], bound);
    var tb := Tolerance * bound;
    assert -Tolerance * bound == -tb;
    assert 3.0 * Tolerance * bound == 3.0 * tb && -3.0 * Tolerance * bound == -3.0 * tb;
    assert -tb <= d0 * p[0] <= tb && -tb <= d1 * p[1] <= tb && -tb <= d2 * p[2] <= tb;
  }

  /** |d| < Tolerance and |p| <= bound give |d * p| <= Tolerance * bound. */
  lemma SmallProduct(d: real, p: real, bound: real)
    requires -Tolerance < d < Tolerance && -bound <= p <= bound
    ensures -Tolerance * bound <= d * p <= Tolerance * bound
  {
    if p >= 0.0 {
      MulNonNegative(Tolerance - d, p);
      MulNonNegative(Tolerance + d, p);
    } else {
      MulNonNegative(Tolerance - d, -p);
      MulNonNegative(Tolerance + d, -p);
    }
  }

  lemma MulNonNegative(a: real, b: real)
    requires a >= 0.0 && b >= 0.0
    ensures a * b >= 0.0
  {
  }

  /**
   * Overload taking a fixed nine-entry matrix: XYZ becomes m . XYZ, all three
   * components computed from the old point before any is written back.
   * The matrix may even be the same array as the point.
   */
  method ApplyChromaticAdaptationFixed(m: array<real>, xyz: array<real>) returns (ok: bool)
    requires m.Length >= 9 && xyz.Length >= 3
    modifies xyz
    ensures ok
    ensures xyz[..3] == MatVec(old(m[..9]), old(xyz[..3]))
    ensures xyz[3..] == old(xyz[3..])
  {
    ghost var ms, vs := m[..9], xyz[..3];
    var x := m[0] * xyz[0] + m[1] * xyz[1] + m[2] * xyz[2];
    var y := m[3] * xyz[0] + m[4] * xyz[1] + m[5] * xyz[2];
    var z := m[6] * xyz[0] + m[7] * xyz[1] + m[8] * xyz[2];
    assert x == MatVec(ms, vs)[0] && y == MatVec(ms, vs)[1] && z == MatVec(ms, vs)[2];
    xyz[0] := x;
    xyz[1] := y;
    xyz[2] := z;
    assert xyz[..3] == [x, y, z];
    ok := true;
  }

  /**
   * Overloads taking the matrix as a vector (the point as a plain buffer or a
   * vector): a matrix of fewer than nine entries is refused and the point is
   * left alone; otherwise XYZ becomes m . XYZ.
   */
  method ApplyChromaticAdaptation(m: seq<real>, xyz: array<real>) returns (ok: bool)
    requires xyz.Length >= 3
    modifies xyz
    ensures ok <==> |m| >= 9
    ensures ok ==> xyz[..3] == MatVec(m, old(xyz[..3]))
    ensures !ok ==> xyz[..] == old(xyz[..])
    ensures xyz[3..] == old(xyz[3..])
  {
    if |m| < 9 {
      return false;
    }
    ghost var vs := xyz[..3];
    var x := m[0] * xyz[0] + m[1] * xyz[1] + m[2] * xyz[2];
    var y := m[3] * xyz[0] + m[4] * xyz[1] + m[5] * xyz[2];
    var z := m[6] * xyz[0] + m[7] * xyz[1] + m[8] * xyz[2];
    assert x == MatVec(m, vs)[0] && y == MatVec(m, vs)[1] && z == MatVec(m, vs)[2];
    xyz[0] := x;
    xyz[1] := y;
    xyz[2] := z;
    assert xyz[..3] == [x, y, z];
    ok := true;
  }

  /**
   * Black-point mapping of one channel: p * (1 - black / white) + black, the
   * straight line through (0, black) and (white, white).
   */
  function Compensate(p: real, white: real, black: real): (q: real)
    requires white != 0.0
    ensures (q - black) * white == p * (white - black)
  {
    p * (1.0 - black / white) + black
  }

  /** The inverse of Compensate, defined when black differs from white. */
  function Uncompensate(q: real, white: real, black: real): real
    requires white != 0.0 && black != white
  {
    (q - black) / (1.0 - black / white)
  }

  /** Zero goes to the black point, white stays white, and a zero black point changes nothing. */
  lemma CompensateFixesWhite(p: real, white: real, black: real)
    requires white != 0.0
    ensures Compensate(0.0, white, black) == black
    ensures Compensate(white, white, black) == white
    ensures black == 0.0 ==> Compensate(p, white, black) == p
  {
  }

  /** Compensate and Uncompensate undo each other. */
  lemma CompensateRoundTrip(p: real, q: real, white: real, black: real)
    requires white != 0.0 && black != white
    ensures Uncompensate(Compensate(p, white, black), white, black) == p
    ensures Compensate(Uncompensate(q, white, black), white, black) == q
  {
    var k := 1.0 - black / white;
    assert k * white == white - black;
    assert Compensate(p, white, black) - black == p * k;
    assert (p * k) / k == p;
    assert Uncompensate(q, white, black) * k == q - black;
  }

  /** For a black point below a positive white, the mapping preserves order. */
  lemma CompensateMonotone(p1: real, p2: real, white: real, black: real)
    requires 0.0 <= black < white && p1 <= p2
    ensures Compensate(p1, white, black) <= Compensate(p2, white, black)
  {
    assert black / white < 1.0;
    assert (p2 - p1) * (1.0 - black / white) >= 0.0;
  }

  /**
   * perceptualTransform: each of the three channels of point is mapped in
   * place by Compensate with the same channel of white and black. Each step
   * reads channel i of the inputs before writing channel i, so the result is
   * the same even when point is the same array as white or black.
   */
  method PerceptualTransform(point: array<real>, white: array<real>, black: array<real>)
    requires point.Length >= 3 && white.Length >= 3 && black.Length >= 3
    requires forall i | 0 <= i < 3 :: white[i] != 0.0
    modifies point
    ensures forall i | 0 <= i < 3 ::
      point[i] == Compensate(old(point[i]), old(white[i]), old(black[i]))
    ensures forall i | 3 <= i < point.Length :: point[i] == old(point[i])
  {
    for i := 0 to 3
      invariant forall j | 0 <= j < i ::
        point[j] == Compensate(old(point[j]), old(white[j]), old(black[j]))
      invariant forall j | i <= j < point.Length :: point[j] == old(point[j])
      invariant forall j | i <= j < 3 :: white[j] == old(white[j]) && black[j] == old(black[j])
    {
      point[i] := point[i] * (1.0 - black[i] / white[i]) + black[i];
    }
  }
}

=== FILE: lut_generator.dfy ===
/**
 * generate3dLut: checks its arguments in a fixed order, loads the GA and the
 * display profile, then samples the GA -> display profile chain on a
 * grid x grid x grid lattice and writes three parallel 16-bit LUT buffers.
 *
 * What the model cannot see is passed in as functions: loading a profile
 * from a path (None when it fails), the transform of the chain built from the
 * two loaded profiles, and the rounding of a double followed by its
 * conversion to unsigned int.
 */
module LutGenerator {

  datatype Option<T> = None | Some(value: T)

  /** A3dLut_Status, in declaration order. */
  datatype Status =
    | Ok
    | ErrorCantOpenGA
    | ErrorCantOpenDisplay
    | ErrorWrongGridValue
    | ErrorNullPointerForOutput
    | ErrorOther

  /** The integer value of each status, as the C enumeration numbers them. */
  function StatusCode(s: Status): (c: int)
    ensures 0 <= c <= 5
    ensures c == 0 <==> s == Ok
  {
    match s
    case Ok => 0
    case ErrorCantOpenGA => 1
    case ErrorCantOpenDisplay => 2
    case ErrorWrongGridValue => 3
    case ErrorNullPointerForOutput => 4
    case ErrorOther => 5
  }

  /** Distinct statuses have distinct codes, so a caller can tell them apart. */
  lemma StatusCodeInjective(s: Status, t: Status)
    ensures StatusCode(s) == StatusCode(t) ==> s == t
  {
  }

  /** The unsigned 32-bit entries of the output buffers. */
  newtype u32 = x: int | 0 <= x < 0x1_0000_0000

  /** A colour triple: the chain's input and output. */
  datatype Rgb = Rgb(r: real, g: real, b: real)

  /** 256 * 256 - 1, the value a channel of 1.0 is scaled to. */
  const MaxValue: int := 256 * 256 - 1

  /** A lattice node (R, G, B). */
  datatype Cell = Cell(r: int, g: int, b: int)

  predicate InGrid(grid: int, c: Cell) {
    0 <= c.r < grid && 0 <= c.g < grid && 0 <= c.b < grid
  }

  function Cube(grid: int): int {
    grid * grid * grid
  }

  /** The buffer position of a node: R * grid^2 + G * grid + B. */
  function CellIndex(grid: int, c: Cell): int {
    c.r * (grid * grid) + c.g * grid + c.b
  }

  /** The node stored at a buffer position. */
  function Decompose(grid: int, i: int): Cell
    requires grid >= 1
  {
    Cell(i / (grid * grid), (i / grid) % grid, i % grid)
  }

  /** The chain input of a node: each coordinate divided by grid - 1. */
  function InputOf(grid: int, c: Cell): Rgb
    requires grid >= 2
  {
    var d := grid as real - 1.0;
    Rgb(c.r as real / d, c.g as real / d, c.b as real / d)
  }

  /** round(v * maxValue) converted to unsigned, through the opaque rounding. */
  function Quantised(quantise: real -> u32, v: real): u32 {
    quantise(v * MaxValue as real)
  }

  /**
   * What one successful run samples: the grid, the two loaded profiles, the
   * chain's transform and the rounding.
   */
  datatype Sampling<!P> = Sampling(grid: int, ga: P, display: P,
                                   transform: (P, P, Rgb) -> Rgb, quantise: real -> u32)
  {
    /** The chain output for buffer position i. */
    function Out(i: int): Rgb
      requires grid >= 2
    {
      transform(ga, display, InputOf(grid, Decompose(grid, i)))
    }

    /** The quantised channel k (0 red, 1 green, 2 blue) for buffer position i. */
    function Value(i: int, k: int): u32
      requires grid >= 2
    {
      var o := Out(i);
      Quantised(quantise, if k == 0 then o.r else if k == 1 then o.g else o.b)
    }
  }

  /**
   * Positions [0, upto) of the buffer contents rs, gs, bs hold their samples:
   * the blue buffer always; the green one unless it is the blue buffer
   * (greenShared); the red one unless it is either of the others (redShared).
   * A later write of the same position wins.
   */
  ghost predicate Filled<P>(s: Sampling<P>, rs: seq<u32>, gs: seq<u32>, bs: seq<u32>,
                            greenShared: bool, redShared: bool, upto: int)
    requires s.grid >= 2
  {
    && upto <= |rs| && upto <= |gs| && upto <= |bs|
    && forall i | 0 <= i < upto ::
         && bs[i] == s.Value(i, 2)
         && (!greenShared ==> gs[i] == s.Value(i, 1))
         && (!redShared ==> rs[i] == s.Value(i, 0))
  }

  /** Positions from `from` on still hold what `before` recorded. */
  ghost predicate Untouched(cur: seq<u32>, before: seq<u32>, from: int) {
    |before| == |cur| && forall i | 0 <= i < |cur| && from <= i :: cur[i] == before[i]
  }

  /** Writing the samples of position upto extends the filled prefix by one. */
  lemma FilledStep<P>(s: Sampling<P>, rs: seq<u32>, gs: seq<u32>, bs: seq<u32>,
                      rs': seq<u32>, gs': seq<u32>, bs': seq<u32>,
                      greenShared: bool, redShared: bool, upto: int)
    requires s.grid >= 2 && 0 <= upto
    requires Filled(s, rs, gs, bs, greenShared, redShared, upto)
    requires upto < |rs| == |rs'| && upto < |gs| == |gs'| && upto < |bs| == |bs'|
    requires forall j | 0 <= j < upto :: rs'[j] == rs[j] && gs'[j] == gs[j] && bs'[j] == bs[j]
    requires bs'[upto] == s.Value(upto, 2)
    requires !greenShared ==> gs'[upto] == s.Value(upto, 1)
    requires !redShared ==> rs'[upto] == s.Value(upto, 0)
    ensures Filled(s, rs', gs', bs', greenShared, redShared, upto + 1)
  {
  }

  /** A write at position upto keeps every later position untouched. */
  lemma UntouchedStep(cur: seq<u32>, cur': seq<u32>, before: seq<u32>, upto: int)
    requires Untouched(cur, before, upto) && |cur'| == |cur|
    requires forall j | 0 <= j < |cur| && j != upto :: cur'[j] == cur[j]
    ensures Untouched(cur', before, upto + 1)
  {
  }

  /**
   * A filled table holds, at the position of every node, the rounded chain
   * output for that node's coordinates divided by grid - 1.
   */
  lemma FilledNode<P>(s: Sampling<P>, rs: seq<u32>, gs: seq<u32>, bs: seq<u32>,
                      greenShared: bool, redShared: bool, c: Cell)
    requires s.grid >= 2 && InGrid(s.grid, c)
    requires Filled(s, rs, gs, bs, greenShared, redShared, Cube(s.grid))
    ensures 0 <= CellIndex(s.grid, c) < Cube(s.grid)
    ensures var o := s.transform(s.ga, s.display, InputOf(s.grid, c));
      && bs[CellIndex(s.grid, c)] == Quantised(s.quantise, o.b)
      && (!greenShared ==> gs[CellIndex(s.grid, c)] == Quantised(s.quantise, o.g))
      && (!redShared ==> rs[CellIndex(s.grid, c)] == Quantised(s.quantise, o.r))
  {
    CellIndexInRange(s.grid, c);
    DecomposeCellIndex(s.grid, c);
  }

  /** Division and remainder are determined by any decomposition x == q * n + r with 0 <= r < n. */
  lemma DivModUnique(x: int, n: int, q: int, r: int)
    requires n > 0 && 0 <= r < n && x == q * n + r
    ensures x / n == q && x % n == r
  {
    var q', r' := x / n, x % n;
    assert (q - q') * n == r' - r;
    if q - q' >= 1 {
      MulAtLeast(q - q', n);
    } else if q' - q >= 1 {
      MulAtLeast(q' - q, n);
    }
  }

  lemma MulAtLeast(k: int, n: int)
    requires k >= 1 && n > 0
    ensures k * n >= n
  {
  }

  lemma MulMonotone(a: int, b: int, k: int)
    requires a <= b && k >= 0
    ensures a * k <= b * k
  {
  }

  /** g * grid + b stays below grid * grid for coordinates in the grid. */
  lemma LowerPartBelowSquare(grid: int, g: int, b: int)
    requires 0 <= g < grid && 0 <= b < grid
    ensures 0 <= g * grid + b < grid * grid
  {
    assert g * grid <= (grid - 1) * grid;
  }

  /** Decompose reads back the node stored by CellIndex. */
  lemma {:induction false} DecomposeCellIndex(grid: int, c: Cell)
    requires InGrid(grid, c)
    ensures Decompose(grid, CellIndex(grid, c)) == c
  {
    var i := CellIndex(grid, c);
    LowerPartBelowSquare(grid, c.g, c.b);
    DivModUnique(i, grid * grid, c.r, c.g * grid + c.b);
    assert i == (c.r * grid + c.g) * grid + c.b;
    DivModUnique(i, grid, c.r * grid + c.g, c.b);
    DivModUnique(c.r * grid + c.g, grid, c.r, c.g);
  }

  /** Only one node of the grid sits at each position: the one Decompose reads back. */
  lemma CellIndexUnique(grid: int, i: int, c: Cell)
    requires grid >= 1 && 0 <= i < Cube(grid)
    requires InGrid(grid, c) && CellIndex(grid, c) == i
    ensures c == Decompose(grid, i)
  {
    DecomposeCellIndex(grid, c);
  }

  /** CellIndex places every node of the grid inside [0, grid^3). */
  lemma CellIndexInRange(grid: int, c: Cell)
    requires InGrid(grid, c)
    ensures 0 <= CellIndex(grid, c) < Cube(grid)
  {
    LowerPartBelowSquare(grid, c.g, c.b);
    MulMonotone(c.r, grid - 1, grid * grid);
    assert (grid - 1) * (grid * grid) + grid * grid == Cube(grid);
  }

  /** Every position of [0, grid^3) holds a node of the grid, and CellIndex recovers the position. */
  lemma {:induction false} CellIndexDecompose(grid: int, i: int)
    requires grid >= 1 && 0 <= i < Cube(grid)
    ensures InGrid(grid, Decompose(grid, i))
    ensures CellIndex(grid, Decompose(grid, i)) == i
  {
    var n := grid;
    var q, r := i / n, i % n;
    var q2, r2 := q / n, q % n;
    assert i == q * n + r;
    assert q == q2 * n + r2;
    assert i == q2 * (n * n) + (r2 * n + r);
    LowerPartBelowSquare(n, r2, r);
    DivModUnique(i, n * n, q2, r2 * n + r);
    assert 0 <= q2 by {
      if q2 < 0 {
        MulMonotone(q2, -1, n * n);
      }
    }
    assert Cube(grid) == n * (n * n);
    MulCancel(q2, n, n * n);
  }

  /** a * k < b * k with k >= 0 forces a < b. */
  lemma MulCancel(a: int, b: int, k: int)
    requires k >= 0 && a * k < b * k
    ensures a < b
  {
    if b <= a {
      MulMonotone(b, a, k);
    }
  }

  /** Positions follow the loop nest: B varies fastest, then G, then R. */
  lemma {:induction false} CellIndexOrder(grid: int, c1: Cell, c2: Cell)
    requires InGrid(grid, c1) && InGrid(grid, c2)
    ensures CellIndex(grid, c1) < CellIndex(grid, c2) <==>
      c1.r < c2.r || (c1.r == c2.r && c1.g < c2.g) || (c1.r == c2.r && c1.g == c2.g && c1.b < c2.b)
  {
    var sq := grid * grid;
    var low1, low2 := c1.g * grid + c1.b, c2.g * grid + c2.b;
    LowerPartBelowSquare(grid, c1.g, c1.b);
    LowerPartBelowSquare(grid, c2.g, c2.b);
    assert CellIndex(grid, c1) == c1.r * sq + low1;
    assert CellIndex(grid, c2) == c2.r * sq + low2;
    if c1.r < c2.r {
      LeadingDigitDecides(c1.r, low1, c2.r, low2, sq);
    } else if c2.r < c1.r {
      LeadingDigitDecides(c2.r, low2, c1.r, low1, sq);
    } else if c1.g < c2.g {
      LeadingDigitDecides(c1.g, c1.b, c2.g, c2.b, grid);
    } else if c2.g < c1.g {
      LeadingDigitDecides(c2.g, c2.b, c1.g, c1.b, grid);
    }
  }

  /** In a positional number q * n + r with 0 <= r < n, the leading digit decides the order. */
  lemma LeadingDigitDecides(q1: int, r1: int, q2: int, r2: int, n: int)
    requires q1 < q2 && 0 <= r1 < n && 0 <= r2 < n
    ensures q1 * n + r1 < q2 * n + r2
  {
    MulMonotone(q1 + 1, q2, n);
    assert (q1 + 1) * n == q1 * n + n;
  }

  /** Node coordinates map into the unit cube, the first corner to all zeros and the last to all ones. */
  lemma InputInUnitCube(grid: int, c: Cell)
    requires grid >= 2 && InGrid(grid, c)
    ensures var v := InputOf(grid, c);
      0.0 <= v.r <= 1.0 && 0.0 <= v.g <= 1.0 && 0.0 <= v.b <= 1.0
    ensures InputOf(grid, Cell(0, 0, 0)) == Rgb(0.0, 0.0, 0.0)
    ensures InputOf(grid, Cell(grid - 1, grid - 1, grid - 1)) == Rgb(1.0, 1.0, 1.0)
  {
    var d := grid as real - 1.0;
    UnitFraction(c.r as real, d);
    UnitFraction(c.g as real, d);
    UnitFraction(c.b as real, d);
    UnitFraction(0.0, d);
    UnitFraction(d, d);
  }

  /** The unsigned running position after i increments: i modulo 2^32. */
  function WrappedIndex(i: int): (w: u32)
    requires 0 <= i
    ensures w as int == i ==> i < 0x1_0000_0000
    ensures i < 0x1_0000_0000 ==> w as int == i
  {
    (i % 0x1_0000_0000) as u32
  }

  /**
   * Beyond 1625 nodes per axis grid^3 exceeds 2^32, and the unsigned running
   * position wraps: the node (1624, 807, 490) of a 1626-grid is written at
   * position 0, over the sample of node (0, 0, 0).
   */
  lemma IndexWrapsBeyondLimit()
    ensures Cube(1625) <= 0x1_0000_0000 < Cube(1626)
    ensures InGrid(1626, Cell(1624, 807, 490))
    ensures CellIndex(1626, Cell(1624, 807, 490)) == 0x1_0000_0000
    ensures WrappedIndex(CellIndex(1626, Cell(1624, 807, 490))) == WrappedIndex(CellIndex(1626, Cell(0, 0, 0)))
  {
  }

  lemma UnitFraction(x: real, d: real)
    requires 0.0 <= x <= d && d > 0.0
    ensures 0.0 <= x / d <= 1.0
    ensures x == 0.0 ==> x / d == 0.0
    ensures x == d ==> x / d == 1.0
  {
    assert x / d * d == x;
  }

  /**
   * generate3dLut. The buffers the caller passes must hold grid^3 entries
   * (and the 32-bit running index must not wrap); the buffers may be one and
   * the same, in which case the later write of a sample wins.
   */
  method GenerateLut<P>(
    gaPath: string, displayPath: string, grid: int,
    rlut: array?<u32>, glut: array?<u32>, blut: array?<u32>,
    load: string -> Option<P>, transform: (P, P, Rgb) -> Rgb, quantise: real -> u32)
    returns (status: Status, ghost loaded: seq<string>)
    requires grid >= 2 && rlut != null && glut != null && blut != null
             && load(gaPath).Some? && load(displayPath).Some? ==>
      Cube(grid) <= 0x1_0000_0000 &&
      rlut.Length >= Cube(grid) && glut.Length >= Cube(grid) && blut.Length >= Cube(grid)
    modifies rlut, glut, blut
    // the order of the checks, and which profiles were loaded
    ensures grid < 2 ==> status == ErrorWrongGridValue && loaded == []
    ensures grid >= 2 && (rlut == null || glut == null || blut == null) ==>
      status == ErrorNullPointerForOutput && loaded == []
    ensures grid >= 2 && rlut != null && glut != null && blut != null ==>
      && loaded == (if load(gaPath).None? then [gaPath] else [gaPath, displayPath])
      && status == (if load(gaPath).None? then ErrorCantOpenGA
                    else if load(displayPath).None? then ErrorCantOpenDisplay
                    else Ok)
    // no buffer is written unless the result is Ok
    ensures status != Ok ==>
      && (rlut != null ==> rlut[..] == old(rlut[..]))
      && (glut != null ==> glut[..] == old(glut[..]))
      && (blut != null ==> blut[..] == old(blut[..]))
    // on success: one sample per position below grid^3, nothing beyond
    ensures status == Ok ==>
      && grid >= 2 && rlut != null && glut != null && blut != null
      && load(gaPath).Some? && load(displayPath).Some?
      && var s := Sampling(grid, load(gaPath).value, load(displayPath).value, transform, quantise);
      && Filled(s, rlut[..], glut[..], blut[..], glut == blut, rlut == glut || rlut == blut, Cube(grid))
      && Untouched(rlut[..], old(rlut[..]), Cube(grid))
      && Untouched(glut[..], old(glut[..]), Cube(grid))
      && Untouched(blut[..], old(blut[..]), Cube(grid))
  {
    if grid < 2 {
      return ErrorWrongGridValue, [];
    }
    if rlut == null || glut == null || blut == null {
      return ErrorNullPointerForOutput, [];
    }
    loaded := [gaPath];
    var ga := load(gaPath);
    if ga.None? {
      return ErrorCantOpenGA, loaded;
    }
    loaded := loaded + [displayPath];
    var display := load(displayPath);
    if display.None? {
      return ErrorCantOpenDisplay, loaded;
    }

    var _ := FillBuffers(Sampling(grid, ga.value, display.value, transform, quantise), rlut, glut, blut);
    status := Ok;
  }

  /**
   * The sampling loop nest of generate3dLut: R outermost, B innermost, one
   * running position per node.
   */
  method FillBuffers<P>(s: Sampling<P>, rlut: array<u32>, glut: array<u32>, blut: array<u32>)
    returns (index: int)
    requires s.grid >= 2
    requires rlut.Length >= Cube(s.grid) && glut.Length >= Cube(s.grid) && blut.Length >= Cube(s.grid)
    modifies rlut, glut, blut
    ensures index == Cube(s.grid)
    ensures Filled(s, rlut[..], glut[..], blut[..], glut == blut, rlut == glut || rlut == blut, Cube(s.grid))
    ensures Untouched(rlut[..], old(rlut[..]), Cube(s.grid))
    ensures Untouched(glut[..], old(glut[..]), Cube(s.grid))
    ensures Untouched(blut[..], old(blut[..]), Cube(s.grid))
  {
    var grid := s.grid;
    ghost var r0, g0, b0 := rlut[..], glut[..], blut[..];
    var sq := grid * grid;
    index := 0;
    var R := 0;
    while R < grid
      invariant 0 <= R <= grid
      invariant index == R * sq
      invariant Filled(s, rlut[..], glut[..], blut[..], glut == blut, rlut == glut || rlut == blut, index)
      invariant Untouched(rlut[..], r0, index) && Untouched(glut[..], g0, index) && Untouched(blut[..], b0, index)
    {
      var G := 0;
      while G < grid
        invariant 0 <= G <= grid
        invariant index == R * sq + G * grid
        invariant Filled(s, rlut[..], glut[..], blut[..], glut == blut, rlut == glut || rlut == blut, index)
        invariant Untouched(rlut[..], r0, index) && Untouched(glut[..], g0, index) && Untouched(blut[..], b0, index)
      {
        index := FillRow(s, R, G, index, rlut, glut, blut, r0, g0, b0);
        assert index == R * sq + (G + 1) * grid;
        G := G + 1;
      }
      assert index == (R + 1) * sq;
      R := R + 1;
    }
  }

  /** The innermost loop: the grid nodes (R, G, 0) .. (R, G, grid - 1), at consecutive positions. */
  method FillRow<P>(s: Sampling<P>, R: int, G: int, start: int,
                    rlut: array<u32>, glut: array<u32>, blut: array<u32>,
                    ghost r0: seq<u32>, ghost g0: seq<u32>, ghost b0: seq<u32>)
    returns (index: int)
    requires s.grid >= 2 && 0 <= R < s.grid && 0 <= G < s.grid
    requires start == CellIndex(s.grid, Cell(R, G, 0))
    requires rlut.Length >= Cube(s.grid) && glut.Length >= Cube(s.grid) && blut.Length >= Cube(s.grid)
    requires Filled(s, rlut[..], glut[..], blut[..], glut == blut, rlut == glut || rlut == blut, start)
    requires Untouched(rlut[..], r0, start) && Untouched(glut[..], g0, start) && Untouched(blut[..], b0, start)
    modifies rlut, glut, blut
    ensures index == start + s.grid
    ensures Filled(s, rlut[..], glut[..], blut[..], glut == blut, rlut == glut || rlut == blut, index)
    ensures Untouched(rlut[..], r0, index) && Untouched(glut[..], g0, index) && Untouched(blut[..], b0, index)
  {
    var grid := s.grid;
    index := start;
    var B := 0;
    while B < grid
      invariant 0 <= B <= grid
      invariant index == CellIndex(grid, Cell(R, G, B))
      invariant Filled(s, rlut[..], glut[..], blut[..], glut == blut, rlut == glut || rlut == blut, index)
      invariant Untouched(rlut[..], r0, index) && Untouched(glut[..], g0, index) && Untouched(blut[..], b0, index)
    {
      SampleNode(s, Cell(R, G, B), index, rlut, glut, blut, r0, g0, b0);
      index := index + 1;
      B := B + 1;
    }
  }

  /**
   * One pass of the innermost loop: samples node c and writes its three
   * channels at the running position, extending the filled prefix by one.
   */
  method SampleNode<P>(s: Sampling<P>, c: Cell, index: int, rlut: array<u32>, glut: array<u32>, blut: array<u32>,
                       ghost r0: seq<u32>, ghost g0: seq<u32>, ghost b0: seq<u32>)
    requires s.grid >= 2 && InGrid(s.grid, c) && index == CellIndex(s.grid, c)
    requires rlut.Length >= Cube(s.grid) && glut.Length >= Cube(s.grid) && blut.Length >= Cube(s.grid)
    requires Filled(s, rlut[..], glut[..], blut[..], glut == blut, rlut == glut || rlut == blut, index)
    requires Untouched(rlut[..], r0, index)
    requires Untouched(glut[..], g0, index)
    requires Untouched(blut[..], b0, index)
    modifies rlut, glut, blut
    ensures Filled(s, rlut[..], glut[..], blut[..], glut == blut, rlut == glut || rlut == blut, index + 1)
    ensures Untouched(rlut[..], r0, index + 1)
    ensures Untouched(glut[..], g0, index + 1)
    ensures Untouched(blut[..], b0, index + 1)
  {
    var grid := s.grid;
    var out := s.transform(s.ga, s.display, InputOf(grid, c));
    DecomposeCellIndex(grid, c);
    CellIndexInRange(grid, c);
    assert s.Out(index) == out;
    var vr := s.quantise(out.r * MaxValue as real);
    var vg := s.quantise(out.g * MaxValue as real);
    var vb := s.quantise(out.b * MaxValue as real);
    ghost var rs, gs, bs := rlut[..], glut[..], blut[..];
    rlut[index] := vr;
    glut[index] := vg;
    blut[index] := vb;
    assert forall j | 0 <= j < rlut.Length && j != index :: rlut[j] == rs[j];
    assert forall j | 0 <= j < glut.Length && j != index :: glut[j] == gs[j];
    assert forall j | 0 <= j < blut.Length && j != index :: blut[j] == bs[j];
    FilledStep(s, rs, gs, bs, rlut[..], glut[..], blut[..], glut == blut, rlut == glut || rlut == blut, index);
    UntouchedStep(rs, rlut[..], r0, index);
    UntouchedStep(gs, glut[..], g0, index);
    UntouchedStep(bs, blut[..], b0, index);
  }
}

=== FILE: min_max_eval.dfy ===
/**
 * CIccMinMaxEval: an accumulator fed one comparison at a time. It keeps, for
 * each of the two colour differences it is given, the running minimum, the
 * running maximum together with the device Lab value and pixel that produced
 * it, the sum and the count, from which the mean is read.
 *
 * The two colour differences are computed by a library routine outside this
 * model (the CIE Delta E of two Lab values), so Compare receives them as
 * inputs. The ghost field `seen` records every comparison, and Valid() ties
 * each field to a function of that record.
 */
module MinMaxEval {

  /** What one Compare call contributes: its pixel, its device Lab value and its two differences. */
  datatype Observation = Observation(pixel: seq<real>, deviceLab: seq<real>, de1: real, de2: real)

  /** The largest difference seen so far and where it was seen. */
  datatype Peak = Peak(de: real, lab: seq<real>, pixel: seq<real>)

  /** The initial minimum, a value larger than any expected difference. */
  const InitialMin: real := 10000.0
  /** The initial maximum, below every difference. */
  const InitialMax: real := -1.0

  const Zeros: seq<real> := [0.0, 0.0, 0.0]

  /** The first difference (second == false) or the second one. */
  function DeOf(o: Observation, second: bool): real {
    if second then o.de2 else o.de1
  }

  /** The differences of one kind, in order of arrival. */
  function Des(obs: seq<Observation>, second: bool): seq<real> {
    seq(|obs|, j requires 0 <= j < |obs| => DeOf(obs[j], second))
  }

  /** The running minimum after ds, starting from InitialMin: replaced when strictly smaller. */
  function Least(ds: seq<real>): real {
    if |ds| == 0 then InitialMin
    else
      var m := Least(ds[..|ds| - 1]);
      if ds[|ds| - 1] < m then ds[|ds| - 1] else m
  }

  /** The running sum of ds. */
  function Total(ds: seq<real>): real {
    if |ds| == 0 then 0.0 else Total(ds[..|ds| - 1]) + ds[|ds| - 1]
  }

  /**
   * The running maximum after obs, starting from InitialMax with zero Lab and
   * pixel: replaced, together with the Lab value and the pixel, only when a
   * difference strictly exceeds it.
   */
  function PeakOf(obs: seq<Observation>, second: bool): Peak {
    if |obs| == 0 then Peak(InitialMax, Zeros, Zeros)
    else
      var p := PeakOf(obs[..|obs| - 1], second);
      var o := obs[|obs| - 1];
      if DeOf(o, second) > p.de then Peak(DeOf(o, second), o.deviceLab, o.pixel) else p
  }

  /** One more observation appends its difference. */
  lemma DesStep(obs: seq<Observation>, o: Observation, second: bool)
    ensures Des(obs + [o], second) == Des(obs, second) + [DeOf(o, second)]
  {
  }

  /** One more observation: the minimum, the maximum and the sum each take one step. */
  lemma RecordStep(obs: seq<Observation>, o: Observation, second: bool)
    ensures Least(Des(obs + [o], second)) ==
      (if DeOf(o, second) < Least(Des(obs, second)) then DeOf(o, second) else Least(Des(obs, second)))
    ensures Total(Des(obs + [o], second)) == Total(Des(obs, second)) + DeOf(o, second)
    ensures PeakOf(obs + [o], second) ==
      (if DeOf(o, second) > PeakOf(obs, second).de then Peak(DeOf(o, second), o.deviceLab, o.pixel)
       else PeakOf(obs, second))
  {
    DesStep(obs, o, second);
    var ds := Des(obs + [o], second);
    assert ds[..|ds| - 1] == Des(obs, second);
    assert (obs + [o])[..|obs|] == obs;
  }

  /** The running minimum is a lower bound of the initial value and of every difference. */
  lemma {:induction false} LeastIsLowerBound(ds: seq<real>)
    ensures Least(ds) <= InitialMin
    ensures forall j | 0 <= j < |ds| :: Least(ds) <= ds[j]
  {
    if |ds| > 0 {
      var init := ds[..|ds| - 1];
      LeastIsLowerBound(init);
      assert forall j | 0 <= j < |init| :: init[j] == ds[j];
    }
  }

  /** The running minimum is the initial value or one of the differences. */
  lemma {:induction false} LeastIsAttained(ds: seq<real>)
    ensures Least(ds) == InitialMin || exists j | 0 <= j < |ds| :: Least(ds) == ds[j]
  {
    if |ds| > 0 {
      var init := ds[..|ds| - 1];
      LeastIsAttained(init);
      if Least(ds) != InitialMin && Least(ds) != ds[|ds| - 1] {
        var j :| 0 <= j < |init| && Least(init) == init[j];
        assert Least(ds) == ds[j];
      }
    }
  }

  /** The recorded maximum is at least the initial one and bounds every difference of its kind. */
  lemma {:induction false} PeakIsUpperBound(obs: seq<Observation>, second: bool)
    ensures InitialMax <= PeakOf(obs, second).de
    ensures forall j | 0 <= j < |obs| :: DeOf(obs[j], second) <= PeakOf(obs, second).de
  {
    if |obs| > 0 {
      var init := obs[..|obs| - 1];
      PeakIsUpperBound(init, second);
      assert forall j | 0 <= j < |init| :: init[j] == obs[j];
    }
  }

  /**
   * The recorded maximum is either still the initial one with zero Lab value
   * and pixel (no difference exceeded -1), or it comes from the FIRST
   * observation that reaches it: the recorded Lab value and pixel are that
   * observation's, and every earlier difference is strictly smaller.
   */
  lemma {:induction false} PeakIsFirstMaximum(obs: seq<Observation>, second: bool)
    ensures PeakOf(obs, second) == Peak(InitialMax, Zeros, Zeros) ||
      exists j | 0 <= j < |obs| ::
        && PeakOf(obs, second) == Peak(DeOf(obs[j], second), obs[j].deviceLab, obs[j].pixel)
        && forall i | 0 <= i < j :: DeOf(obs[i], second) < DeOf(obs[j], second)
  {
    if |obs| > 0 {
      var init := obs[..|obs| - 1];
      var p := PeakOf(init, second);
      var last := |obs| - 1;
      if DeOf(obs[last], second) > p.de {
        PeakIsUpperBound(init, second);
        assert forall i | 0 <= i < last :: DeOf(obs[i], second) == DeOf(init[i], second) <= p.de;
      } else {
        PeakIsFirstMaximum(init, second);
        if p != Peak(InitialMax, Zeros, Zeros) {
          var j :| 0 <= j < |init| && p == Peak(DeOf(init[j], second), init[j].deviceLab, init[j].pixel)
                   && forall i | 0 <= i < j :: DeOf(init[i], second) < DeOf(init[j], second);
          assert forall i | 0 <= i <= j :: init[i] == obs[i];
        }
      }
    }
  }

  /** A sum of n values that all lie in [lo, hi] lies in [n * lo, n * hi]. */
  lemma {:induction false} TotalBounded(ds: seq<real>, lo: real, hi: real)
    requires forall j | 0 <= j < |ds| :: lo <= ds[j] <= hi
    ensures |ds| as real * lo <= Total(ds) <= |ds| as real * hi
  {
    if |ds| > 0 {
      var init := ds[..|ds| - 1];
      assert forall j | 0 <= j < |init| :: init[j] == ds[j];
      TotalBounded(init, lo, hi);
      assert |ds| as real * lo == |init| as real * lo + lo;
      assert |ds| as real * hi == |init| as real * hi + hi;
    }
  }

  /** The mean of a non-empty record lies between its running minimum and maximum. */
  lemma MeanBetweenExtremes(obs: seq<Observation>, second: bool)
    requires |obs| > 0
    ensures Least(Des(obs, second)) <= Total(Des(obs, second)) / |obs| as real <= PeakOf(obs, second).de
  {
    var ds := Des(obs, second);
    var lo, hi := Least(ds), PeakOf(obs, second).de;
    assert forall j | 0 <= j < |ds| :: lo <= ds[j] <= hi by {
      LeastIsLowerBound(ds);
      PeakIsUpperBound(obs, second);
    }
    var n := |ds| as real;
    assert n * lo <= Total(ds) <= n * hi by {
      TotalBounded(ds, lo, hi);
    }
    DivideBounds(Total(ds), n, lo, hi);
  }

  lemma DivideBounds(t: real, n: real, lo: real, hi: real)
    requires n > 0.0 && n * lo <= t <= n * hi
    ensures lo <= t / n <= hi
  {
    assert t / n * n == t;
  }

  class CIccMinMaxEval {
    var minDE1: real
    var minDE2: real
    var maxDE1: real
    var maxDE2: real
    var maxLab1: array<real>
    var maxLab2: array<real>
    var maxPixel1: array<real>
    var maxPixel2: array<real>
    var sum1: real
    var sum2: real
    var num1: real
    var num2: real

    /** Every comparison made so far, oldest first. */
    ghost var seen: seq<Observation>

    /** Each field is what the comparisons in `seen` make of it. */
    ghost predicate Valid()
      reads this, maxLab1, maxLab2, maxPixel1, maxPixel2
    {
      && maxLab1.Length == 3 && maxLab2.Length == 3 && maxPixel1.Length == 3 && maxPixel2.Length == 3
      && maxLab1 != maxLab2 && maxLab1 != maxPixel1 && maxLab1 != maxPixel2
      && maxLab2 != maxPixel1 && maxLab2 != maxPixel2 && maxPixel1 != maxPixel2
      && minDE1 == Least(Des(seen, false)) && minDE2 == Least(Des(seen, true))
      && PeakOf(seen, false) == Peak(maxDE1, maxLab1[..], maxPixel1[..])
      && PeakOf(seen, true) == Peak(maxDE2, maxLab2[..], maxPixel2[..])
      && sum1 == Total(Des(seen, false)) && sum2 == Total(Des(seen, true))
      && num1 == |seen| as real && num2 == |seen| as real
    }

    /** Minimum 10000, maximum -1, zero sums and counts, zero Lab values and pixels. */
    constructor ()
      ensures Valid() && seen == []
      ensures minDE1 == InitialMin && minDE2 == InitialMin && maxDE1 == InitialMax && maxDE2 == InitialMax
      ensures sum1 == 0.0 && sum2 == 0.0 && num1 == 0.0 && num2 == 0.0
      ensures maxLab1[..] == Zeros && maxLab2[..] == Zeros && maxPixel1[..] == Zeros && maxPixel2[..] == Zeros
      ensures fresh(maxLab1) && fresh(maxLab2) && fresh(maxPixel1) && fresh(maxPixel2)
    {
      minDE1, minDE2 := 10000.0, 10000.0;
      maxDE1, maxDE2 := -1.0, -1.0;
      sum1, sum2 := 0.0, 0.0;
      num1, num2 := 0.0, 0.0;
      maxLab1 := new real[3](_ => 0.0);
      maxLab2 := new real[3](_ => 0.0);
      maxPixel1 := new real[3](_ => 0.0);
      maxPixel2 := new real[3](_ => 0.0);
      seen := [];
    }

    /**
     * Records one comparison with differences de1 and de2: the running minima
     * fall to a strictly smaller difference, the running maxima rise to a
     * strictly larger one and then copy the device Lab value and the pixel,
     * and the sums and counts grow.
     */
    method Compare(pixel: array<real>, deviceLab: array<real>, de1: real, de2: real)
      requires Valid()
      requires pixel.Length >= 3 && deviceLab.Length >= 3
      requires pixel != maxLab1 && pixel != maxLab2 && pixel != maxPixel1 && pixel != maxPixel2
      requires deviceLab != maxLab1 && deviceLab != maxLab2 && deviceLab != maxPixel1 && deviceLab != maxPixel2
      modifies this, maxLab1, maxLab2, maxPixel1, maxPixel2
      ensures Valid()
      ensures seen == old(seen) + [Observation(pixel[..3], deviceLab[..3], de1, de2)]
      ensures maxLab1 == old(maxLab1) && maxLab2 == old(maxLab2)
      ensures maxPixel1 == old(maxPixel1) && maxPixel2 == old(maxPixel2)
      // each field takes one step
      ensures minDE1 == (if de1 < old(minDE1) then de1 else old(minDE1))
      ensures minDE2 == (if de2 < old(minDE2) then de2 else old(minDE2))
      ensures maxDE1 == (if de1 > old(maxDE1) then de1 else old(maxDE1))
      ensures maxDE2 == (if de2 > old(maxDE2) then de2 else old(maxDE2))
      ensures maxLab1[..] == (if de1 > old(maxDE1) then deviceLab[..3] else old(maxLab1[..]))
      ensures maxPixel1[..] == (if de1 > old(maxDE1) then pixel[..3] else old(maxPixel1[..]))
      ensures maxLab2[..] == (if de2 > old(maxDE2) then deviceLab[..3] else old(maxLab2[..]))
      ensures maxPixel2[..] == (if de2 > old(maxDE2) then pixel[..3] else old(maxPixel2[..]))
      ensures sum1 == old(sum1) + de1 && sum2 == old(sum2) + de2
      ensures num1 == old(num1) + 1.0 && num2 == old(num2) + 1.0
    {
      ghost var o := Observation(pixel[..3], deviceLab[..3], de1, de2);
      ghost var obs := seen + [o];
      // what Valid() demands after this comparison, in terms of the fields now
      ghost var least1, least2 := Least(Des(obs, false)), Least(Des(obs, true));
      ghost var total1, total2 := Total(Des(obs, false)), Total(Des(obs, true));
      ghost var peak1, peak2 := PeakOf(obs, false), PeakOf(obs, true);
      assert least1 == (if de1 < minDE1 then de1 else minDE1) && total1 == sum1 + de1
          && peak1 == (if de1 > maxDE1 then Peak(de1, deviceLab[..3], pixel[..3])
                       else Peak(maxDE1, maxLab1[..], maxPixel1[..])) by {
        RecordStep(seen, o, false);
      }
      assert least2 == (if de2 < minDE2 then de2 else minDE2) && total2 == sum2 + de2
          && peak2 == (if de2 > maxDE2 then Peak(de2, deviceLab[..3], pixel[..3])
                       else Peak(maxDE2, maxLab2[..], maxPixel2[..])) by {
        RecordStep(seen, o, true);
      }

      TrackFirst(pixel, deviceLab, de1);
      TrackSecond(pixel, deviceLab, de2);
      seen := obs;
    }

    /** The first-difference half of Compare: minimum, maximum with its Lab value and pixel, sum, count. */
    method TrackFirst(pixel: array<real>, deviceLab: array<real>, de1: real)
      requires pixel.Length >= 3 && deviceLab.Length >= 3
      requires maxLab1.Length == 3 && maxPixel1.Length == 3 && maxLab1 != maxPixel1
      requires pixel != maxLab1 && pixel != maxPixel1 && deviceLab != maxLab1 && deviceLab != maxPixel1
      modifies this`minDE1, this`maxDE1, this`sum1, this`num1, maxLab1, maxPixel1
      ensures minDE1 == (if de1 < old(minDE1) then de1 else old(minDE1))
      ensures Peak(maxDE1, maxLab1[..], maxPixel1[..]) ==
        (if de1 > old(maxDE1) then Peak(de1, deviceLab[..3], pixel[..3])
         else Peak(old(maxDE1), old(maxLab1[..]), old(maxPixel1[..])))
      ensures sum1 == old(sum1) + de1 && num1 == old(num1) + 1.0
    {
      if de1 < minDE1 {
        minDE1 := de1;
      }
      if de1 > maxDE1 {
        maxDE1 := de1;
        CopyTriple(maxLab1, deviceLab);
        CopyTriple(maxPixel1, pixel);
      }
      sum1 := sum1 + de1;
      num1 := num1 + 1.0;
    }

    /** The second-difference half of Compare. */
    method TrackSecond(pixel: array<real>, deviceLab: array<real>, de2: real)
      requires pixel.Length >= 3 && deviceLab.Length >= 3
      requires maxLab2.Length == 3 && maxPixel2.Length == 3 && maxLab2 != maxPixel2
      requires pixel != maxLab2 && pixel != maxPixel2 && deviceLab != maxLab2 && deviceLab != maxPixel2
      modifies this`minDE2, this`maxDE2, this`sum2, this`num2, maxLab2, maxPixel2
      ensures minDE2 == (if de2 < old(minDE2) then de2 else old(minDE2))
      ensures Peak(maxDE2, maxLab2[..], maxPixel2[..]) ==
        (if de2 > old(maxDE2) then Peak(de2, deviceLab[..3], pixel[..3])
         else Peak(old(maxDE2), old(maxLab2[..]), old(maxPixel2[..])))
      ensures sum2 == old(sum2) + de2 && num2 == old(num2) + 1.0
    {
      if de2 < minDE2 {
        minDE2 := de2;
      }
      if de2 > maxDE2 {
        maxDE2 := de2;
        CopyTriple(maxLab2, deviceLab);
        CopyTriple(maxPixel2, pixel);
      }
      sum2 := sum2 + de2;
      num2 := num2 + 1.0;
    }

    /** The mean of the first differences: between their running minimum and maximum. */
    function GetMean1(): (mean: real)
      reads this, maxLab1, maxLab2, maxPixel1, maxPixel2
      requires Valid() && num1 > 0.0
      ensures mean == Total(Des(seen, false)) / |seen| as real
      ensures minDE1 <= mean <= maxDE1
    {
      MeanBetweenExtremes(seen, false);
      sum1 / num1
    }

    /** The mean of the second differences: between their running minimum and maximum. */
    function GetMean2(): (mean: real)
      reads this, maxLab1, maxLab2, maxPixel1, maxPixel2
      requires Valid() && num2 > 0.0
      ensures mean == Total(Des(seen, true)) / |seen| as real
      ensures minDE2 <= mean <= maxDE2
    {
      MeanBetweenExtremes(seen, true);
      sum2 / num2
    }
  }

  /** memcpy of three values: dst receives the first three entries of src. */
  method CopyTriple(dst: array<real>, src: array<real>)
    requires dst.Length == 3 && src.Length >= 3 && dst != src
    modifies dst
    ensures dst[..] == src[..3]
  {
    dst[0] := src[0];
    dst[1] := src[1];
    dst[2] := src[2];
  }
}

=== FILE: profile.dfy ===
/**
 * The small stateful part of QubyxProfile: the descriptive strings and flags
 * from which the profile title is built, the ICC specification version the
 * profile is written for, and the colour-space signatures that decide
 * whether the profile works in CIELAB.
 *
 * The ICC profile object itself (tags, curves, loading and saving) is not
 * part of this model; of its header only the two signatures read by
 * IsLabProfile are kept, zero in an empty header.
 */
module Profile {

  /** The ICC specification versions a profile can be written for. */
  datatype ICCSpec = ICCv4 | ICCv2

  /** A four-character ICC colour-space signature, as its 32-bit big-endian value. */
  newtype Signature = x: int | 0 <= x < 0x1_0000_0000

  const SigRgbData: Signature := 0x52474220  // 'RGB '
  const SigXYZData: Signature := 0x58595A20  // 'XYZ '
  const SigLabData: Signature := 0x4C616220  // 'Lab '

  /** The version string written into the profile for each specification. */
  function SpecString(spec: ICCSpec): (s: string)
    ensures |s| == 3 && s[1] == '.'
    ensures '0' <= s[0] <= '9' && '0' <= s[2] <= '9'
    ensures spec == ICCv4 <==> s[0] == '4'
  {
    match spec
    case ICCv2 => "2.1"
    case ICCv4 => "4.0"
  }

  /** The version number for each specification: major * 10 + minor. */
  function SpecNumber(spec: ICCSpec): (n: int)
    ensures 10 <= n < 100
  {
    match spec
    case ICCv2 => 21
    case ICCv4 => 40
  }

  function DigitValue(c: char): int {
    c as int - '0' as int
  }

  /** The number and the string name the same version: its digits read off the string. */
  lemma SpecNumberMatchesString(spec: ICCSpec)
    ensures SpecNumber(spec) == 10 * DigitValue(SpecString(spec)[0]) + DigitValue(SpecString(spec)[2])
  {
    match spec
    case ICCv2 =>
      assert SpecString(spec) == "2.1";
    case ICCv4 =>
      assert SpecString(spec) == "4.0";
  }

  /** Distinct specifications get distinct strings and distinct numbers. */
  lemma SpecEncodingsInjective(a: ICCSpec, b: ICCSpec)
    ensures SpecString(a) == SpecString(b) ==> a == b
    ensures SpecNumber(a) == SpecNumber(b) ==> a == b
  {
  }

  /** s ends with t. */
  predicate EndsWith(s: string, t: string) {
    |t| <= |s| && s[|s| - |t|..] == t
  }

  /** s starts with t. */
  predicate StartsWith(s: string, t: string) {
    |t| <= |s| && s[..|t|] == t
  }

  class QubyxProfile {
    var optDescription: string
    var skipDescrType: bool
    var deviceName: string
    var spec: ICCSpec
    var filename: string
    var inColorSpace: Signature
    var outColorSpace: Signature
    /** The colour space and the connection space recorded in the loaded profile's header. */
    var headerColorSpace: Signature
    var headerPcs: Signature

    /** A fresh profile: RGB in, XYZ out, ICC v4, no description, no device name, type shown. */
    constructor ()
      ensures optDescription == "" && !skipDescrType && deviceName == "" && filename == ""
      ensures spec == ICCv4
      ensures inColorSpace == SigRgbData && outColorSpace == SigXYZData
      ensures headerColorSpace == 0 && headerPcs == 0
      ensures !IsLabProfile()
    {
      optDescription, skipDescrType, deviceName, filename := "", false, "", "";
      spec := ICCv4;
      inColorSpace, outColorSpace := SigRgbData, SigXYZData;
      headerColorSpace, headerPcs := 0, 0;
    }

    /** The same, remembering the path the profile will be loaded from. */
    constructor FromPath(profilePath: string)
      ensures optDescription == "" && !skipDescrType && deviceName == "" && filename == profilePath
      ensures spec == ICCv4
      ensures inColorSpace == SigRgbData && outColorSpace == SigXYZData
      ensures headerColorSpace == 0 && headerPcs == 0
      ensures !IsLabProfile()
    {
      optDescription, skipDescrType, deviceName, filename := "", false, "", profilePath;
      spec := ICCv4;
      inColorSpace, outColorSpace := SigRgbData, SigXYZData;
      headerColorSpace, headerPcs := 0, 0;
    }

    /**
     * The title shown by colour-management applications. A non-empty optional
     * description leads, followed by a space and the type unless the type is
     * skipped. Otherwise the device name and " -" lead (when there is a device
     * name), then " " and the type unless skipped, then a closing space.
     */
    function MakeProfileTitle(profileType: string): (title: string)
      reads this
      // what leads
      ensures optDescription != "" ==> StartsWith(title, optDescription + " ")
      ensures optDescription == "" && deviceName != "" ==> StartsWith(title, deviceName + " -")
      ensures optDescription == "" && deviceName == "" ==> StartsWith(title, " ")
      // what ends: the type, unless skipped
      ensures optDescription != "" && !skipDescrType ==> EndsWith(title, " " + profileType)
      ensures optDescription == "" && !skipDescrType ==> EndsWith(title, " " + profileType + " ")
      ensures skipDescrType ==> EndsWith(title, " ")
      // nothing else
      ensures |title| ==
        (if optDescription != "" then |optDescription| + 1
         else (if deviceName != "" then |deviceName| + 2 else 0) + 1)
        + (if skipDescrType then 0 else |profileType| + (if optDescription != "" then 0 else 1))
    {
      if optDescription != "" then
        if !skipDescrType then optDescription + " " + profileType
        else optDescription + " "
      else
        var lead := if deviceName != "" then deviceName + " -" else "";
        var typed := if !skipDescrType then lead + " " + profileType else lead;
        typed + " "
    }

    /**
     * With the type shown, the title tells the type apart: two types give the
     * same title only when they are equal.
     */
    lemma TitleDeterminesType(t1: string, t2: string)
      requires !skipDescrType
      ensures MakeProfileTitle(t1) == MakeProfileTitle(t2) ==> t1 == t2
    {
      var a, b := MakeProfileTitle(t1), MakeProfileTitle(t2);
      if a == b {
        var k := if optDescription != "" then 0 else 1;
        assert |t1| == |t2|;
        assert t1 == a[|a| - |t1| - k..|a| - k];
        assert t2 == b[|b| - |t2| - k..|b| - k];
      }
    }

    /** With the type skipped, the title does not depend on the type. */
    lemma TitleIgnoresSkippedType(t1: string, t2: string)
      requires skipDescrType
      ensures MakeProfileTitle(t1) == MakeProfileTitle(t2)
    {
    }

    /** Sets the optional description; the type is shown in the title exactly when useType. */
    method SetOptionalDescription(text: string, useType: bool := true)
      modifies this
      ensures optDescription == text && skipDescrType == !useType
      ensures deviceName == old(deviceName) && spec == old(spec) && filename == old(filename)
      ensures inColorSpace == old(inColorSpace) && outColorSpace == old(outColorSpace)
      ensures headerColorSpace == old(headerColorSpace) && headerPcs == old(headerPcs)
      ensures text != "" ==> forall t :: MakeProfileTitle(t) == text + " " + (if useType then t else "")
    {
      optDescription := text;
      skipDescrType := !useType;
    }

    /** Sets the device name, and shows the type in the title again. */
    method SetDeviceName(name: string)
      modifies this
      ensures deviceName == name && !skipDescrType
      ensures optDescription == old(optDescription) && spec == old(spec) && filename == old(filename)
      ensures inColorSpace == old(inColorSpace) && outColorSpace == old(outColorSpace)
      ensures headerColorSpace == old(headerColorSpace) && headerPcs == old(headerPcs)
      ensures optDescription == "" && name != "" ==>
        forall t :: MakeProfileTitle(t) == name + " - " + t + " "
      ensures optDescription == "" && name == "" ==>
        forall t :: MakeProfileTitle(t) == " " + t + " "
    {
      deviceName := name;
      skipDescrType := false;
    }

    method SetICCspecification(s: ICCSpec)
      modifies this`spec
      ensures spec == s
    {
      spec := s;
    }

    /** The specification version as written into the profile: "2.1" or "4.0". */
    function ICCspecificationAsString(): (s: string)
      reads this
      ensures |s| == 3 && s[1] == '.'
      ensures s == "2.1" <==> spec == ICCv2
      ensures s == "4.0" <==> spec == ICCv4
    {
      SpecString(spec)
    }

    /** The specification version as a number, the digits of the version string: 21 or 40. */
    function ICCspecificationAsInt(): (n: int)
      reads this
      ensures n == 10 * DigitValue(ICCspecificationAsString()[0]) + DigitValue(ICCspecificationAsString()[2])
    {
      SpecNumberMatchesString(spec);
      SpecNumber(spec)
    }

    /** Sets the device and the connection colour space. */
    method SetColorSpaces(inSpace: Signature, outSpace: Signature)
      modifies this`inColorSpace, this`outColorSpace
      ensures inColorSpace == inSpace && outColorSpace == outSpace
      ensures IsLabProfile() <==>
        inSpace == SigLabData || outSpace == SigLabData || old(headerColorSpace == SigLabData || headerPcs == SigLabData)
    {
      inColorSpace := inSpace;
      outColorSpace := outSpace;
    }

    /**
     * The profile works in CIELAB when its header's colour space or
     * connection space, or its own input or output space, is Lab.
     */
    predicate IsLabProfile()
      reads this
    {
      headerColorSpace == SigLabData || headerPcs == SigLabData
      || inColorSpace == SigLabData || outColorSpace == SigLabData
    }
  }
}
